=== FILE: README.md ===
# Franco's lair: a Dafny model of the game state machine

The game is a small text adventure. The player walks an eight-room building,
picks up the six food items spread over the rooms, and wins. Walking into the
Garage, where Franco lives, loses the game. The repository holds two versions
of the rules, and this project models each one separately:

- **The live game** (`src/components/GameContainer.js`). It has a symmetric
  room table with a description for every room. Its state is
  `(currentRoom, inventory, gameOver, isWin)` and it has three handlers: move,
  collect and restart. Buttons are disabled once the game is over.
- **The older command game** (`src/Game.js`). It has a non-symmetric room
  table and its state is `(currentRoom, inventory)`. It reads two-word
  `go`/`get` commands and can load a saved snapshot.

Files:

- `world.dfy` (module `World`) holds the shared vocabulary:
  - the closed sets of rooms, directions and items, and the strings the
    source uses for them;
  - room objects as ordered lists of own properties;
  - the JavaScript operations the game applies to those objects:
    `Object.keys`, `obj[key]`, `key in obj` and the key filter.
- `live_graph.dfy` (module `LiveGraph`) holds the live room table:
  - an adjacency table and an item table, proved to agree with the object
    literals;
  - the available-directions list that both `GameContainer.js` and
    `RoomDisplay.js` derive;
  - facts about the graph.
- `live_game.dfy` (module `LiveGame`) holds the live handlers, the button
  guards and the invariant `Consistent`. The invariant holds in every state
  reachable from the start through any sequence of actions.
- `legacy_game.dfy` (module `LegacyGame`) holds the command game's table,
  `handleCommand` and `loadGame`.

Modelling choices:

- JavaScript's `undefined` is `Option.None`. `LegacyGame.Word` models
  `command[i]`, which is `undefined` past the end, and `LegacyGame.Truthy`
  models the truthiness of a string field: present and not empty.
- A room object is the list of its own properties in declaration order.
  `Object.keys` is therefore the key list, and `obj[key]` is the first
  property with that key. Room objects are assumed to have distinct keys,
  which holds for every literal of both tables. On an object with a
  repeated key the model would list the key twice and read its first value,
  where JavaScript lists it once and keeps the last value.
- In the live game `currentRoom` is a `Room`. This is sound because every
  exit value of the live table is a room name (`LiveGraph.LiveRoomWellFormed`).
- In the command game `currentRoom` stays a string. `go item` stores an item
  name there, and a loaded snapshot may hold any string. In such a state a
  `go` or `get` command reads a property of `rooms[currentRoom]`, which is
  `undefined`, and throws a TypeError. The model reports this as the notice
  `Crashed` with the state unchanged. Any other verb reads nothing and does
  nothing.
- `handleCommand` takes its command as a list of words, such as
  `["go", "East"]`, because it compares `command[0]` with `go`. The caller
  is assumed to split the typed text into words. Given the unsplit string
  `"go East"` instead, `command[0]` would be `"g"` and every command would
  do nothing.

## Model

| member | source | states |
|---|---|---|
| World.RoomNamed | src/components/GameContainer.js:146-196 | The table key a string names: the room whose name it is, or none when no room has that name |
| World.RoomNameRoundTrip | src/components/GameContainer.js:146-196 | Every room's name is a table key that leads back to that room, so names tell rooms apart |
| World.ItemNameIsNoRoom | src/Game.js:12-21 | No item name is a key of the room table |
| World.ItemNamesDistinct | src/components/GameContainer.js:225 | Two items with the same name are the same item, so `inventory.includes(item)` tests for the item itself |
| World.DirectionIsNoPropertyName | src/components/GameContainer.js:267 | No direction is called `item` or `description`, the two keys the filter removes |
| World.DirectionNameInjective | src/components/GameContainer.js:209 | Two directions share a key exactly when they are the same direction |
| World.Keys | src/components/GameContainer.js:267 | `Object.keys(obj)` has one key per own property |
| World.KeysInOrder | src/components/GameContainer.js:267 | `Object.keys(obj)` lists the keys in the order the properties are declared |
| World.Lookup | src/components/GameContainer.js:209 | `obj[key]` is defined exactly when `key` is one of `Object.keys(obj)`, and then it is the value of a property with that key |
| World.ExitTo | src/components/GameContainer.js:146-196 | An exit found in a direction is a property of the room object |
| World.ExitToFindsEveryExit | src/components/GameContainer.js:209 | When the room object declares an exit in a direction, reading that direction finds an exit |
| World.ItemOf | src/components/GameContainer.js:224 | An item found is a property of the room object |
| World.ItemOfFindsTheItem | src/components/GameContainer.js:224 | When the room object declares an item, reading `item` finds one |
| World.LookupDirection | src/components/GameContainer.js:209 | Reading a direction key gives the name of the room the exit in that direction leads to, or `undefined` when there is no such exit |
| World.LookupItem | src/components/GameContainer.js:224 | Reading `item` gives the name of the item the room holds, or `undefined` |
| World.LookupDescription | src/components/GameContainer.js:218 | Reading `description` gives the text of the room the object describes, or `undefined` when it describes none |
| World.OtherKeysAreExits | src/components/GameContainer.js:267 | Every key other than `item` and `description` names a direction in which the room has an exit |
| World.Filter | src/components/GameContainer.js:267 | `keys.filter(keep)` keeps exactly the keys that pass `keep`, each as often as it occurs in the input and none that fail, in their input order, and is never longer than its input |
| World.FilterCons | src/components/GameContainer.js:267 | Filtering a list that starts with a key keeps that key first exactly when it passes, then filters the rest |
| World.DirectionKeys | src/components/GameContainer.js:267 | The filtered keys of a room object name exactly the directions it has exits for |
| World.DirectionKeysInOrder | src/components/GameContainer.js:267 | The filtered keys are the names of the room object's exits, one per exit property, in declaration order |
| World.FilterAgrees | src/components/RoomDisplay.js:9-11 | Two tests that keep the same keys filter any key list to the same list |
| LiveGraph.ExitsMatchLiterals | src/components/GameContainer.js:146-196 | The adjacency table reads exactly the exits that the object literals declare |
| LiveGraph.RoomsMatchLiterals | src/components/GameContainer.js:146-196 | The item table reads exactly the items the object literals declare, the exit-order table lists each literal's exits in declaration order, and each literal describes its own room |
| LiveGraph.LiveRoomDescribed | src/components/GameContainer.js:218 | The `description` of every room object is that room's own text |
| LiveGraph.AvailableDirections | src/components/GameContainer.js:267 | The listed directions are exactly those with an exit from the room, and every room lists at least one |
| LiveGraph.AvailableDirectionsInOrder | src/components/GameContainer.js:267 | Every room lists its exits once each in declaration order, matched against a table written out per room: "East, South" for the Lobby |
| LiveGraph.DisplayedDirections | src/components/RoomDisplay.js:9-11 | Without a room object nothing is listed; with one, the listed directions are exactly those it has exits for |
| LiveGraph.DisplayAgreesWithFilter | src/components/RoomDisplay.js:9-11 | For any room object, RoomDisplay's test lists the same keys as GameContainer's, in the same order |
| LiveGraph.DisplayAgreesWithContainer | src/components/RoomDisplay.js:9-11 | RoomDisplay lists the same directions as GameContainer, in the same order |
| LiveGraph.LiveRoomWellFormed | src/components/GameContainer.js:146-196 | Every exit value is itself a key of the room table |
| LiveGraph.LiveGraphSymmetric | src/components/GameContainer.js:146-196 | Every exit has a way back in the opposite direction |
| LiveGraph.ItemsPlacedOnce | src/components/GameContainer.js:146-196 | Each item lies in at most one room, Franco is only in the Garage, the Lobby holds nothing, and every food item is somewhere |
| LiveGame.HandleMove | src/components/GameContainer.js:206-221 | A finished game and a direction without an exit leave the state unchanged. Otherwise the player stands in the room whose name the exit holds, and the inventory is unchanged. The game is over exactly when the new room is the Garage, and it is won only if it was already won and the new room is not the Garage |
| LiveGame.CanCollect | src/components/GameContainer.js:224-225 | An item can be collected exactly when the room's `item` is defined, is not Franco and equals no held item |
| LiveGame.HandleCollectItem | src/components/GameContainer.js:223-236 | Unless the room's item exists, is not Franco and is not held, nothing changes. Otherwise the inventory grows by exactly that item at its end, the room stays, and the game becomes over and won exactly when six or more items are held. The handler does not check `gameOver` |
| LiveGame.HandleRestart | src/components/GameContainer.js:238-245 | Gives the Lobby, an empty inventory, a game neither over nor won, which is a state the invariant admits |
| LiveGame.RestartForgetsHistory | src/components/GameContainer.js:238-245 | Restarting from any two states gives the same state, the initial one |
| LiveGame.Run | src/components/GameContainer.js:199-245 | Any sequence of handler calls keeps a consistent state consistent |
| LiveGame.RunConcat | src/components/GameContainer.js:199-245 | Running two sequences of actions one after the other is running their concatenation |
| LiveGame.DistinctCount | src/components/GameContainer.js:225 | An inventory without repeats has as many distinct items as entries |
| LiveGame.SubsetCount | src/components/GameContainer.js:225 | A set of items inside another is no larger |
| LiveGame.FoodCount | src/components/GameContainer.js:225-230 | Distinct food items number at most six, and six of them are all of them |
| LiveGame.StepKeepsConsistent | src/components/GameContainer.js:206-245 | Each of the three handlers keeps the invariant: distinct food items only; a running game is outside the Garage with fewer than six items; a won game holds all six outside the Garage; a lost game is in the Garage with fewer than six |
| LiveGame.GameOverIgnoresMoves | src/components/GameContainer.js:207 | Once the game is over, a move changes nothing |
| LiveGame.GameOverIgnoresCollect | src/components/GameContainer.js:223-236 | In a consistent finished game a collect changes nothing, although the handler has no `gameOver` test |
| LiveGame.ReachableStates | src/components/GameContainer.js:199-245 | From the start, whatever the actions: no item twice, food only, at most six items. The game is over exactly in the Garage or with six items, it is won exactly with six, and a win is never in the Garage |
| LiveGame.MoveEnabled | src/components/GameContainer.js:295-322 | A direction button is enabled exactly when the game is not over and the room has an exit that way |
| LiveGame.CollectEnabled | src/components/GameContainer.js:330-334 | The collect button is shown and enabled exactly when the game is running and a click would change the state; a click then adds exactly one item |
| LiveGame.Press | src/components/GameContainer.js:291-458 | A click on a disabled button does nothing: once the game is over only a restart acts, a restart is impossible while the game runs, and a restart after the end gives the initial state. Clicks keep the invariant |
| LiveGame.ButtonsMatchHandlers | src/components/GameContainer.js:295-334 | In a reachable state, pressing a direction or the collect button, with its enabled test, does the same as calling the handler directly |
| LiveGame.GreenhouseEastLoses | src/components/GameContainer.js:212-214 | Going East from the Greenhouse enters the Garage and loses, whatever the inventory holds |
| LegacyGame.LegacyRoom | src/Game.js:12-21 | The command game's room objects have no `description` property |
| LegacyGame.HandleCommand | src/Game.js:37-75 | A `go` never changes the inventory, and anything else never moves the player. A verb other than `go` or `get` does nothing. Both verbs throw, changing nothing, exactly when the current room is no room, and a refused move changes nothing |
| LegacyGame.GoFollowsAnyKey | src/Game.js:39-41 | `go k` is accepted exactly when `k` is a key of the room object, `item` included, and then the room becomes the value under `k`; otherwise the state is unchanged |
| LegacyGame.GoItemLeavesTheMap | src/Game.js:39-41 | `go item` in a room with an item stores the item's name as the room, after which every `go` or `get` throws |
| LegacyGame.GoDirection | src/Game.js:38-56 | `go` with a direction follows the room's exit that way, raising the loss alert exactly on entering the Garage, or reports the missing exit |
| LegacyGame.GetAppendsOnMatch | src/Game.js:57-72 | `get x` appends the room's `item` value exactly when `x` equals it, and otherwise changes nothing. The win alert fires exactly on an append that makes the inventory longer than five |
| LegacyGame.GetTwiceAppendsTwice | src/Game.js:58-60 | With no check for an item already held, two `get`s of the room's item append it twice |
| LegacyGame.GetFrancoInGarage | src/Game.js:58-60 | `get Franco` in the Garage puts Franco in the inventory |
| LegacyGame.BareGetInLobby | src/Game.js:58-60 | A `get` with no argument in the Lobby, which holds nothing, appends `undefined` |
| LegacyGame.GarageLoses | src/Game.js:50-53 | Entering the Garage raises the loss alert and leaves the inventory as it was |
| LegacyGame.GarageDoesNotFreeze | src/Game.js:38-41 | A `go` from the Garage is still followed |
| LegacyGame.NotSymmetric | src/Game.js:13-15 | The Director office has no exit West back to the Lobby and the Daycare none North, so a `go West` there is refused |
| LegacyGame.LegacyExitsAreLiveExits | src/Game.js:12-21 | Every exit of this table leads where the live table's exit in that direction leads |
| LegacyGame.LegacyExitsExactly | src/Game.js:12-21 | The command game's exits are exactly the live table's, except that it has no West exit from the Director office, no North exit from the Daycare and no West exit from the Garage |
| LegacyGame.LegacyItemsAreLiveItems | src/Game.js:12-21 | Both tables put the same item in each room |
| LegacyGame.ExtraWordsIgnored | src/Game.js:38-58 | Only the first two words are read: a longer command acts exactly as its first two words |
| LegacyGame.LegacyValuesAreTruthy | src/Game.js:12-21 | Every value in the command game's room objects is a room or item name, and so a truthy string |
| LegacyGame.CommandKeepsRoomTruthy | src/Game.js:37-75 | From a state whose room is a non-empty string, every command leaves a non-empty room, because `go` stores only values of the room object |
| LegacyGame.SessionKeepsRoomTruthy | src/Game.js:24-75 | Any mix of commands and loads keeps the current room a truthy string |
| LegacyGame.ReachedStatesReload | src/Game.js:24-34 | Every state reached from the start, once saved, is restored exactly by loading it back, whatever the state at load time |
| LegacyGame.LoadGame | src/Game.js:24-34 | The state changes only when the loaded room is present and non-empty and the inventory is present, and then both are replaced by the loaded values. A failed load changes nothing |
| LegacyGame.SaveThenLoad | src/services/gameService.js:12-19 | Loading back the snapshot that a save sends restores the saved state from any state, provided the saved room name is not empty |

## Left out

- HTTP persistence (`src/services/gameService.js`). The `await saveGameState(...)` calls inside `handleCommand` are no-ops here. A failed save is only logged and does not change the state. `LegacyGame.Saved` assumes the store hands back exactly what was saved.
- Timers, randomness and animation: the overlay's `setTimeout` delays, the confetti built from `Math.random`, and the random `userId`.
- The `message` text and the `showGameOver` overlay flag. These are presentation; the restart button is modelled as present exactly when the game is over.
- Styling, icons, the welcome screen, the command-input formatting, the inventory slots and authentication.
- Keys inherited from `Object.prototype`, such as `toString` or `constructor`. For `in` and `obj[key]` the model sees only a room object's own properties, and it treats a `currentRoom` of that name as no room.
- Loaded snapshots whose fields are not a string and an array, such as a number or an object as the room. The model takes the room as an optional string and the inventory as an optional list, whose `None` entries stand for `null`.
- React's batching of state updates. Each handler is modelled as one atomic transition computed from the state it was called in, which is what the source's closures read.

Notes on the code:

- `handleCollectItem` has no `gameOver` check of its own. Only the button's `disabled` test stops a collect after the game ends.
- The inventory is an array, not a set, and the live win test is `length >= 6`.
- The live handlers never fail: a missing exit is silently ignored. In the command game a missing exit is only logged, and the one failure is the TypeError of a `go` or `get` in a state whose room is no room (`Crashed` above).

=== FILE: legacy_game.dfy ===
/** The older, command-driven variant of the game (Game.js). It keeps only
    the current room and the inventory, reads two-word commands such as
    `["go", "East"]` or `["get", "Steak"]`, and runs over its own room table,
    which lacks three of the live table's exits. Unlike the live game it never
    freezes, never checks for an item held twice, and tests the membership of
    any key of the room object, `item` included, when asked to go somewhere.
 */
module LegacyGame {
  import opened World
  import LiveGraph

  /** The object literal `rooms[RoomName(r)]` of this variant. */
  function LegacyRoom(r: Room): (obj: seq<Field>)
    ensures forall f :: f in obj ==> !f.Describe?
  {
    match r
    case Lobby => [Exit(East, DirectorOffice), Exit(South, Daycare)]
    case DirectorOffice => [Exit(South, Lounge), Holds(Chocolate)]
    case Daycare => [Exit(South, DeepFreezer), Holds(Cracker)]
    case DeepFreezer => [Exit(North, Daycare), Exit(South, Greenhouse), Exit(East, StorageRoom), Holds(Steak)]
    case Greenhouse => [Exit(North, DeepFreezer), Exit(East, Garage), Holds(Tomato)]
    case Garage => [Exit(North, StorageRoom), Holds(Franco)]
    case Lounge => [Exit(North, DirectorOffice), Exit(South, StorageRoom), Holds(Water)]
    case StorageRoom => [Exit(North, Lounge), Exit(South, Garage), Exit(West, DeepFreezer), Holds(Potato)]
  }

  /** `rooms[name]`, undefined when `name` is not a room. */
  function RoomObject(name: string): Option<seq<Field>> {
    RoomNamed(name).Then(LegacyRoom)
  }

  /** `currentRoom` is whatever string was stored last, a room name or not;
      an inventory entry is `None` where `get` appended an undefined item. */
  datatype State = State(currentRoom: string, inventory: seq<Option<string>>)

  const Start := State("Lobby", [])

  /** What a command signals besides the new state: nothing, the console
      message for a missing exit, the loss alert, the win alert, or the
      TypeError thrown when `rooms[currentRoom]` is undefined. */
  datatype Notice = Quiet | NoExit | Lost | Won | Crashed

  datatype Reaction = Reaction(state: State, notice: Notice)

  /** `command[i]`, undefined past the end. */
  function Word(command: seq<string>, i: nat): Option<string> {
    if i < |command| then Some(command[i]) else None
  }

  predicate IsGo(command: seq<string>) {
    Word(command, 0) == Some("go")
  }

  predicate IsGet(command: seq<string>) {
    Word(command, 0) == Some("get")
  }

  /** `handleCommand(command)`, with the saves it awaits left out. A `go`
      never touches the inventory and a `get` never moves the player; any
      other verb does nothing; both verbs throw, changing nothing, when the
      current room is not a room. */
  function HandleCommand(s: State, command: seq<string>): (r: Reaction)
    ensures IsGo(command) ==> r.state.inventory == s.inventory
    ensures !IsGo(command) ==> r.state.currentRoom == s.currentRoom
    ensures !IsGo(command) && !IsGet(command) ==> r == Reaction(s, Quiet)
    ensures r.notice == Crashed <==> (IsGo(command) || IsGet(command)) && RoomNamed(s.currentRoom).None?
    ensures r.notice == Crashed || r.notice == NoExit ==> r.state == s
  {
    var arg := Word(command, 1);
    if IsGo(command) then
      match RoomObject(s.currentRoom)
      case None => Reaction(s, Crashed)
      case Some(obj) =>
        if arg.Some? && arg.value in Keys(obj) then
          var newRoom := Lookup(obj, arg.value).value;
          Reaction(s.(currentRoom := newRoom), if newRoom == "Garage" then Lost else Quiet)
        else Reaction(s, NoExit)
    else if IsGet(command) then
      match RoomObject(s.currentRoom)
      case None => Reaction(s, Crashed)
      case Some(obj) =>
        var item := Lookup(obj, "item");
        if arg == item then
          var inventory := s.inventory + [item];
          Reaction(s.(inventory := inventory), if |inventory| > 5 then Won else Quiet)
        else Reaction(s, Quiet)
    else Reaction(s, Quiet)
  }

  /** `go k` is accepted exactly when `k` is a key of the current room object
      (an exit or `item`), and then stores the value under that key as the
      current room; otherwise nothing changes. */
  lemma GoFollowsAnyKey(s: State, command: seq<string>, obj: seq<Field>)
    requires IsGo(command) && RoomObject(s.currentRoom) == Some(obj)
    ensures var r := HandleCommand(s, command);
      && (r.notice != NoExit <==> Word(command, 1).Some? && Word(command, 1).value in Keys(obj))
      && (r.notice != NoExit ==> r.state == s.(currentRoom := Lookup(obj, Word(command, 1).value).value))
  {
  }

  /** `go item` in a room that holds an item stores the item's name as the
      current room. That name is no room, so every later `go` or `get` throws. */
  lemma GoItemLeavesTheMap(s: State, obj: seq<Field>, command: seq<string>)
    requires RoomObject(s.currentRoom) == Some(obj) && ItemOf(obj).Some?
    requires IsGo(command) || IsGet(command)
    ensures var t := HandleCommand(s, ["go", "item"]);
      && t.notice == Quiet
      && t.state.currentRoom == ItemName(ItemOf(obj).value)
      && HandleCommand(t.state, command) == Reaction(t.state, Crashed)
  {
    LookupItem(obj);
    ItemNameIsNoRoom(ItemOf(obj).value);
    assert Word(["go", "item"], 1) == Some("item");
  }

  /** `get x` appends the room's `item` value exactly when `x` equals it, with
      no check that the item is already held, and the win alert fires exactly
      when the new inventory is longer than five. */
  lemma GetAppendsOnMatch(s: State, command: seq<string>, obj: seq<Field>)
    requires IsGet(command) && RoomObject(s.currentRoom) == Some(obj)
    ensures var r := HandleCommand(s, command);
      && (Word(command, 1) == Lookup(obj, "item") ==> r.state.inventory == s.inventory + [Lookup(obj, "item")])
      && (Word(command, 1) != Lookup(obj, "item") ==> r == Reaction(s, Quiet))
      && (r.notice == Won <==> Word(command, 1) == Lookup(obj, "item") && |s.inventory| + 1 > 5)
  {
  }

  /** Two `get`s of the room's item append it twice. */
  lemma GetTwiceAppendsTwice(s: State, obj: seq<Field>)
    requires RoomObject(s.currentRoom) == Some(obj) && ItemOf(obj).Some?
    ensures var name := ItemName(ItemOf(obj).value);
      var once := HandleCommand(s, ["get", name]).state;
      HandleCommand(once, ["get", name]).state.inventory == s.inventory + [Some(name), Some(name)]
  {
    LookupItem(obj);
    var name := ItemName(ItemOf(obj).value);
    assert Word(["get", name], 1) == Some(name);
  }

  /** `get Franco` in the Garage puts Franco in the inventory. */
  lemma GetFrancoInGarage(inventory: seq<Option<string>>)
    ensures HandleCommand(State(RoomName(Garage), inventory), ["get", ItemName(Franco)]).state
         == State(RoomName(Garage), inventory + [Some(ItemName(Franco))])
  {
    RoomNameRoundTrip(Garage);
    LookupItem(LegacyRoom(Garage));
    assert ItemOf(LegacyRoom(Garage)) == Some(Franco);
    GetAppendsOnMatch(State(RoomName(Garage), inventory), ["get", ItemName(Franco)], LegacyRoom(Garage));
  }

  /** A bare `get` in the Lobby, which holds no item, matches the missing item
      and appends an undefined entry. */
  lemma BareGetInLobby(inventory: seq<Option<string>>)
    ensures HandleCommand(State(RoomName(Lobby), inventory), ["get"]).state
         == State(RoomName(Lobby), inventory + [None])
  {
    RoomNameRoundTrip(Lobby);
    LookupItem(LegacyRoom(Lobby));
    assert ItemOf(LegacyRoom(Lobby)) == None;
    GetAppendsOnMatch(State(RoomName(Lobby), inventory), ["get"], LegacyRoom(Lobby));
  }

  /** Entering the Garage raises the loss alert and nothing else: the player
      stands in the Garage with the inventory unchanged. */
  lemma GarageLoses(inventory: seq<Option<string>>)
    ensures HandleCommand(State(RoomName(Greenhouse), inventory), ["go", DirectionName(East)])
         == Reaction(State(RoomName(Garage), inventory), Lost)
  {
    RoomNameRoundTrip(Greenhouse);
    GreenhouseEast();
    GoDirection(State(RoomName(Greenhouse), inventory), LegacyRoom(Greenhouse), East);
  }

  lemma GreenhouseEast()
    ensures ExitTo(LegacyRoom(Greenhouse), East) == Some(Garage)
  {
  }

  /** The Garage does not end the game: a `go` from it is still followed. */
  lemma GarageDoesNotFreeze(inventory: seq<Option<string>>)
    ensures HandleCommand(State(RoomName(Garage), inventory), ["go", DirectionName(North)])
         == Reaction(State(RoomName(StorageRoom), inventory), Quiet)
  {
    RoomNameRoundTrip(Garage);
    GarageNorth();
    GoDirection(State(RoomName(Garage), inventory), LegacyRoom(Garage), North);
  }

  lemma GarageNorth()
    ensures ExitTo(LegacyRoom(Garage), North) == Some(StorageRoom)
  {
  }

  /** The table is not symmetric: the Lobby leads East to the Director office
      and South to the Daycare, but neither leads back, so `go West` in the
      Director office is refused. */
  lemma NotSymmetric(inventory: seq<Option<string>>)
    ensures ExitTo(LegacyRoom(Lobby), East) == Some(DirectorOffice) && ExitTo(LegacyRoom(DirectorOffice), West) == None
    ensures ExitTo(LegacyRoom(Lobby), South) == Some(Daycare) && ExitTo(LegacyRoom(Daycare), North) == None
    ensures HandleCommand(State(RoomName(DirectorOffice), inventory), ["go", DirectionName(West)]).notice == NoExit
  {
    RoomNameRoundTrip(DirectorOffice);
    GoDirection(State(RoomName(DirectorOffice), inventory), LegacyRoom(DirectorOffice), West);
  }

  /** Every exit of this table leads where the live table's exit that way
      leads; the live table only adds exits. */
  lemma LegacyExitsAreLiveExits(r: Room, d: Direction)
    ensures ExitTo(LegacyRoom(r), d).Some? ==> ExitTo(LegacyRoom(r), d) == LiveGraph.Neighbour(r, d)
  {
  }

  /** The exits of this table are exactly the live table's, except for the
      three it lacks: West from the Director office, North from the Daycare
      and West from the Garage. */
  lemma LegacyExitsExactly(r: Room, d: Direction)
    ensures ExitTo(LegacyRoom(r), d) ==
      if (r == DirectorOffice && d == West) || (r == Daycare && d == North) || (r == Garage && d == West)
      then None
      else LiveGraph.Neighbour(r, d)
  {
    match r
    case DeepFreezer => DeepFreezerExits(d);
    case StorageRoom => StorageRoomExits(d);
    case _ =>
  }

  lemma DeepFreezerExits(d: Direction)
    ensures ExitTo(LegacyRoom(DeepFreezer), d) == LiveGraph.Neighbour(DeepFreezer, d)
  {
  }

  lemma StorageRoomExits(d: Direction)
    ensures ExitTo(LegacyRoom(StorageRoom), d) == LiveGraph.Neighbour(StorageRoom, d)
  {
  }

  /** Both tables put the same item in each room. */
  lemma LegacyItemsAreLiveItems(r: Room)
    ensures ItemOf(LegacyRoom(r)) == LiveGraph.Treasure(r)
  {
    match r
    case Lobby =>
    case DirectorOffice => assert ItemOf(LegacyRoom(DirectorOffice)) == Some(Chocolate);
    case Daycare => assert ItemOf(LegacyRoom(Daycare)) == Some(Cracker);
    case DeepFreezer => assert ItemOf(LegacyRoom(DeepFreezer)) == Some(Steak);
    case Greenhouse => assert ItemOf(LegacyRoom(Greenhouse)) == Some(Tomato);
    case Garage => assert ItemOf(LegacyRoom(Garage)) == Some(Franco);
    case Lounge => assert ItemOf(LegacyRoom(Lounge)) == Some(Water);
    case StorageRoom => assert ItemOf(LegacyRoom(StorageRoom)) == Some(Potato);
  }

  /** In a room, `go` with a direction name walks through the exit that way,
      signalling the loss exactly on entering the Garage, or reports that
      there is no such exit. */
  lemma GoDirection(s: State, obj: seq<Field>, d: Direction)
    requires RoomObject(s.currentRoom) == Some(obj)
    ensures var reaction := HandleCommand(s, ["go", DirectionName(d)]);
      match ExitTo(obj, d)
      case None => reaction == Reaction(s, NoExit)
      case Some(next) =>
        reaction == Reaction(s.(currentRoom := RoomName(next)), if next == Garage then Lost else Quiet)
  {
    LookupDirection(obj, d);
    assert Word(["go", DirectionName(d)], 1) == Some(DirectionName(d));
    if ExitTo(obj, d).Some? {
      RoomNameRoundTrip(ExitTo(obj, d).value);
    }
  }

  /** What `loadGameState` resolves to: the saved fields, either of which may
      be missing, or a failure, which `loadGame` catches. An inventory entry
      is `None` where the stored array holds `null`. */
  datatype Loaded = LoadFailed | Loaded(currentRoom: Option<string>, inventory: Option<seq<Option<string>>>)

  /** JavaScript truthiness of a string field: present and not empty. */
  function Truthy(field: Option<string>): bool {
    field.Some? && field.value != ""
  }

  /** `loadGame()`: applies a loaded snapshot only when its room is truthy and
      its inventory is present (an array, even an empty one, is truthy);
      otherwise, and on failure, the state stays as it was. */
  function LoadGame(s: State, loaded: Loaded): (t: State)
    ensures t != s ==> loaded.Loaded? && Truthy(loaded.currentRoom) && loaded.inventory.Some?
    ensures loaded.Loaded? && Truthy(loaded.currentRoom) && loaded.inventory.Some? ==>
      t.currentRoom == loaded.currentRoom.value && t.inventory == loaded.inventory.value
  {
    if loaded.Loaded? && Truthy(loaded.currentRoom) && loaded.inventory.Some? then
      State(loaded.currentRoom.value, loaded.inventory.value)
    else s
  }

  /** The `gameData` that `saveGameState(userId, currentRoom, inventory)`
      sends, as the store would hand it back. */
  function Saved(s: State): Loaded {
    Loaded(Some(s.currentRoom), Some(s.inventory))
  }

  /** Every value a room object of this table holds, a room name or an
      item name, is a truthy string. */
  lemma LegacyValuesAreTruthy(r: Room, f: Field)
    requires f in LegacyRoom(r)
    ensures Truthy(Some(ValueName(f)))
  {
    assert !f.Describe?;
  }

  /** A command keeps a truthy current room truthy: `go` stores only a value
      of the current room object, and `get` does not move the player. */
  lemma CommandKeepsRoomTruthy(s: State, command: seq<string>)
    requires Truthy(Some(s.currentRoom))
    ensures Truthy(Some(HandleCommand(s, command).state.currentRoom))
  {
    var arg := Word(command, 1);
    if IsGo(command) && RoomObject(s.currentRoom).Some? {
      var obj := RoomObject(s.currentRoom).value;
      if arg.Some? && arg.value in Keys(obj) {
        var v := Lookup(obj, arg.value);
        assert v.Some?;
        var f :| f in obj && KeyName(f) == arg.value && ValueName(f) == v.value;
        LegacyValuesAreTruthy(RoomNamed(s.currentRoom).value, f);
      }
    }
  }

  /** What the player does in the command game: type a command, or have a
      saved snapshot loaded. */
  datatype Input = Command(words: seq<string>) | Load(loaded: Loaded)

  /** The state after a sequence of inputs. */
  function Session(s: State, inputs: seq<Input>): State
    decreases |inputs|
  {
    if inputs == [] then s
    else
      var t := match inputs[0]
        case Command(words) => HandleCommand(s, words).state
        case Load(loaded) => LoadGame(s, loaded);
      Session(t, inputs[1..])
  }

  /** Neither commands nor loads ever leave an empty current room behind. */
  lemma {:induction false} SessionKeepsRoomTruthy(s: State, inputs: seq<Input>)
    requires Truthy(Some(s.currentRoom))
    ensures Truthy(Some(Session(s, inputs).currentRoom))
    decreases |inputs|
  {
    if inputs != [] {
      match inputs[0]
      case Command(words) =>
        CommandKeepsRoomTruthy(s, words);
        SessionKeepsRoomTruthy(HandleCommand(s, words).state, inputs[1..]);
      case Load(loaded) =>
        SessionKeepsRoomTruthy(LoadGame(s, loaded), inputs[1..]);
    }
  }

  /** Every state the game reaches from the start, saved and loaded back,
      is restored: `loadGame`'s truthiness test never rejects a save. */
  lemma ReachedStatesReload(inputs: seq<Input>, other: State)
    ensures LoadGame(other, Saved(Session(Start, inputs))) == Session(Start, inputs)
  {
    SessionKeepsRoomTruthy(Start, inputs);
  }

  /** Words after the second are never read: a longer command acts as its
      first two words. */
  lemma ExtraWordsIgnored(s: State, command: seq<string>)
    requires |command| >= 2
    ensures HandleCommand(s, command) == HandleCommand(s, command[..2])
  {
    assert Word(command, 0) == Word(command[..2], 0);
    assert Word(command, 1) == Word(command[..2], 1);
  }

  /** Loading back what was saved restores the saved state, from any state,
      as long as the saved room name is not empty. */
  lemma SaveThenLoad(s: State, other: State)
    requires s.currentRoom != ""
    ensures LoadGame(other, Saved(s)) == s
  {
  }
}

=== FILE: live_game.dfy ===
/** The state machine of the live game (GameContainer.js): the player walks
    the live room table, collects the six food items and wins, or walks into
    the Garage and loses. The state is the four `useState` values the rules
    read; the message text, the overlay flag and its timers are presentation
    and are left out.
 */
module LiveGame {
  import opened World
  import opened LiveGraph

  datatype GameState = GameState(currentRoom: Room, inventory: seq<Item>, gameOver: bool, isWin: bool)

  /** The initial `useState` values, which a restart also restores. */
  const Start := GameState(Lobby, [], false, false)

  /** `handleMove(direction)`: ignored once the game is over or when the room
      has no exit that way; otherwise the player walks through the exit, and
      walking into the Garage loses the game whatever the inventory holds. */
  function HandleMove(s: GameState, direction: Direction): (t: GameState)
    ensures s.gameOver ==> t == s
    ensures Lookup(LiveRoom(s.currentRoom), DirectionName(direction)).None? ==> t == s
    ensures !s.gameOver && Lookup(LiveRoom(s.currentRoom), DirectionName(direction)).Some? ==>
      && RoomName(t.currentRoom) == Lookup(LiveRoom(s.currentRoom), DirectionName(direction)).value
      && t.inventory == s.inventory
      && (t.gameOver <==> t.currentRoom == Garage)
      && (t.isWin <==> s.isWin && t.currentRoom != Garage)
  {
    LookupDirection(LiveRoom(s.currentRoom), direction);
    ExitsMatchLiterals(s.currentRoom, direction);
    if s.gameOver then s
    else match Neighbour(s.currentRoom, direction)
      case None => s
      case Some(next) =>
        if next == Garage then s.(currentRoom := next, gameOver := true, isWin := false)
        else s.(currentRoom := next)
  }

  /** The test in `handleCollectItem`: the room holds an item, the item is not
      Franco, and the inventory does not already include it. */
  function CanCollect(s: GameState): (b: bool)
    ensures b <==>
      var item := Lookup(LiveRoom(s.currentRoom), "item");
      && item.Some? && item.value != "Franco"
      && forall k :: 0 <= k < |s.inventory| ==> ItemName(s.inventory[k]) != item.value
  {
    LookupItem(LiveRoom(s.currentRoom));
    RoomsMatchLiterals(s.currentRoom);
    ItemNamesDistinct();
    Treasure(s.currentRoom).Some? && Treasure(s.currentRoom).value != Franco
    && Treasure(s.currentRoom).value !in s.inventory
  }

  /** `handleCollectItem()`: appends the room's item when the test passes, and
      ends the game as a win once the inventory holds six or more items. The
      handler itself does not look at `gameOver`. */
  function HandleCollectItem(s: GameState): (t: GameState)
    ensures !CanCollect(s) ==> t == s
    ensures CanCollect(s) ==>
      && |t.inventory| == |s.inventory| + 1
      && t.inventory[..|s.inventory|] == s.inventory
      && Lookup(LiveRoom(s.currentRoom), "item") == Some(ItemName(t.inventory[|s.inventory|]))
      && t.currentRoom == s.currentRoom
      && (t.gameOver <==> s.gameOver || |t.inventory| >= 6)
      && (t.isWin <==> s.isWin || |t.inventory| >= 6)
  {
    LookupItem(LiveRoom(s.currentRoom));
    RoomsMatchLiterals(s.currentRoom);
    if CanCollect(s) then
      var inventory := s.inventory + [Treasure(s.currentRoom).value];
      if |inventory| >= 6 then s.(inventory := inventory, gameOver := true, isWin := true)
      else s.(inventory := inventory)
    else s
  }

  /** `handleRestart()`: back to the initial state, whatever came before. */
  function HandleRestart(s: GameState): (t: GameState)
    ensures t.currentRoom == Lobby && t.inventory == [] && !t.gameOver && !t.isWin
    ensures Consistent(t)
  {
    Start
  }

  /** One user action, as the handler it triggers. */
  datatype Event = Move(direction: Direction) | Collect | Restart

  function Step(s: GameState, e: Event): GameState {
    match e
    case Move(d) => HandleMove(s, d)
    case Collect => HandleCollectItem(s)
    case Restart => HandleRestart(s)
  }

  /** The state after a sequence of actions. A consistent state stays
      consistent, whatever the actions. */
  function Run(s: GameState, events: seq<Event>): (t: GameState)
    ensures Consistent(s) ==> Consistent(t)
    decreases |events|
  {
    if events == [] then s
    else
      StepKeepsConsistent(s, events[0]);
      Run(Step(s, events[0]), events[1..])
  }

  /** Running two sequences of actions one after the other is running their
      concatenation. */
  lemma {:induction false} RunConcat(s: GameState, a: seq<Event>, b: seq<Event>)
    ensures Run(s, a + b) == Run(Run(s, a), b)
    decreases |a|
  {
    if a == [] {
      assert a + b == b;
    } else {
      assert (a + b)[1..] == a[1..] + b;
      RunConcat(Step(s, a[0]), a[1..], b);
    }
  }

  predicate NoDuplicates(items: seq<Item>) {
    forall i, j :: 0 <= i < j < |items| ==> items[i] != items[j]
  }

  predicate AllFood(items: seq<Item>) {
    forall k :: 0 <= k < |items| ==> IsFood(items[k])
  }

  /** What holds in every state the game can reach: the inventory holds
      distinct food items only; a running game is outside the Garage with
      fewer than six items; a won game has all six and is not in the Garage;
      a lost game is in the Garage with fewer than six. */
  predicate Consistent(s: GameState) {
    && NoDuplicates(s.inventory)
    && AllFood(s.inventory)
    && (s.isWin ==> s.gameOver)
    && (!s.gameOver ==> s.currentRoom != Garage && |s.inventory| < 6)
    && (s.gameOver && s.isWin ==> s.currentRoom != Garage && |s.inventory| == 6)
    && (s.gameOver && !s.isWin ==> s.currentRoom == Garage && |s.inventory| < 6)
  }

  /** Distinct items form a set as large as the list. */
  lemma {:induction false} DistinctCount(items: seq<Item>)
    requires NoDuplicates(items)
    ensures |set x | x in items| == |items|
  {
    if items != [] {
      DistinctCount(items[1..]);
      assert (set x | x in items) == (set x | x in items[1..]) + {items[0]};
      assert items[0] !in items[1..];
    }
  }

  /** A subset is no larger than its superset. */
  lemma {:induction false} SubsetCount(a: set<Item>, b: set<Item>)
    requires a <= b
    ensures |a| <= |b|
    decreases a
  {
    if a != {} {
      var x :| x in a;
      SubsetCount(a - {x}, b - {x});
    }
  }

  /** Distinct food items number at most six, and six of them are all of
      them. */
  lemma FoodCount(items: seq<Item>)
    requires NoDuplicates(items) && AllFood(items)
    ensures |items| <= 6
    ensures |items| == 6 ==> forall i :: IsFood(i) ==> i in items
  {
    DistinctCount(items);
    var held := set x | x in items;
    assert held <= Food;
    assert |Food| == 6;
    SubsetCount(held, Food);
    if |items| == 6 {
      forall i | IsFood(i)
        ensures i in items
      {
        if i !in items {
          assert i in Food;
          SubsetCount(held, Food - {i});
        }
      }
    }
  }

  /** Every action keeps a consistent state consistent. */
  lemma StepKeepsConsistent(s: GameState, e: Event)
    ensures Consistent(s) ==> Consistent(Step(s, e))
  {
    if !Consistent(s) {
      return;
    }
    match e
    case Move(d) =>
    case Collect =>
      if s.gameOver {
        GameOverIgnoresCollect(s);
      } else if CanCollect(s) {
        var t := HandleCollectItem(s);
        forall i, j | 0 <= i < j < |t.inventory|
          ensures t.inventory[i] != t.inventory[j]
        {
          if j == |s.inventory| {
            assert t.inventory[i] == s.inventory[i];
          }
        }
      }
    case Restart =>
  }

  /** Once the game is over, a move changes nothing. */
  lemma GameOverIgnoresMoves(s: GameState, d: Direction)
    requires s.gameOver
    ensures HandleMove(s, d) == s
  {
  }

  /** Once the game is over, in a reachable state, a collect changes nothing
      either, although the handler does not test `gameOver`: a lost game
      stands in the Garage, which holds only Franco, and a won game already
      holds every item. */
  lemma GameOverIgnoresCollect(s: GameState)
    requires Consistent(s) && s.gameOver
    ensures HandleCollectItem(s) == s
  {
    if s.isWin {
      FoodCount(s.inventory);
    }
  }

  /** The facts GameContainer relies on, for every state reachable from the
      start: no item twice, at most six items, food only; the game is over
      exactly when the player is in the Garage or holds six items; a win is
      never in the Garage. */
  lemma ReachableStates(events: seq<Event>)
    ensures var s := Run(Start, events);
      && NoDuplicates(s.inventory)
      && AllFood(s.inventory)
      && |s.inventory| <= 6
      && (s.gameOver <==> s.currentRoom == Garage || |s.inventory| == 6)
      && (s.isWin <==> |s.inventory| == 6)
      && !(s.isWin && s.currentRoom == Garage)
  {
  }

  /** A direction button is enabled when the room has that exit and the game
      is not over. */
  function MoveEnabled(s: GameState, d: Direction): (b: bool)
    ensures b <==> !s.gameOver && Neighbour(s.currentRoom, d).Some?
  {
    LookupDirection(LiveRoom(s.currentRoom), d);
    ExitsMatchLiterals(s.currentRoom, d);
    Lookup(LiveRoom(s.currentRoom), DirectionName(d)).Some? && !s.gameOver
  }

  /** The collect button is shown when the room's item is collectable and is
      enabled while the game is not over; a click on it always adds an item. */
  function CollectEnabled(s: GameState): (b: bool)
    ensures b ==> !s.gameOver && |HandleCollectItem(s).inventory| == |s.inventory| + 1
    ensures b <==> !s.gameOver && HandleCollectItem(s) != s
  {
    CanCollect(s) && !s.gameOver
  }

  /** A click: a disabled or hidden button does nothing, and the restart
      button exists only on the game-over overlay. So once the game is over
      only a restart acts, and while it runs a restart is impossible. */
  function Press(s: GameState, e: Event): (t: GameState)
    ensures s.gameOver && !e.Restart? ==> t == s
    ensures e.Restart? && !s.gameOver ==> t == s
    ensures e.Restart? && s.gameOver ==> t == Start
    ensures Consistent(s) ==> Consistent(t)
  {
    StepKeepsConsistent(s, e);
    match e
    case Move(d) => if MoveEnabled(s, d) then HandleMove(s, d) else s
    case Collect => if CollectEnabled(s) then HandleCollectItem(s) else s
    case Restart => if s.gameOver then HandleRestart(s) else s
  }

  /** In a reachable state, the buttons' guards change nothing: the move
      handler repeats the move buttons' test, and in every reachable finished
      game the collect handler's own item test already fails, so the collect
      button's `gameOver` test adds nothing. */
  lemma ButtonsMatchHandlers(s: GameState, e: Event)
    requires Consistent(s)
    requires !e.Restart?
    ensures Press(s, e) == Step(s, e)
  {
    if s.gameOver && e.Collect? {
      GameOverIgnoresCollect(s);
    }
  }

  /** A restart leads to the same state from any two states. */
  lemma RestartForgetsHistory(s: GameState, s': GameState)
    ensures HandleRestart(s) == HandleRestart(s') == Start
  {
  }

  /** From the Greenhouse, going East enters the Garage and loses, with the
      inventory unchanged. */
  lemma GreenhouseEastLoses(s: GameState)
    requires s.currentRoom == Greenhouse && !s.gameOver
    ensures HandleMove(s, East) == s.(currentRoom := Garage, gameOver := true, isWin := false)
  {
  }
}

=== FILE: live_graph.dfy ===
/** The room table of the live game (`rooms` in GameContainer.js) and the
    list of available directions the room view derives from it.
 */
module LiveGraph {
  import opened World

  /** The object literal `rooms[RoomName(r)]`, properties in declaration order. */
  function LiveRoom(r: Room): (obj: seq<Field>)
  {
    match r
    case Lobby => [
      Exit(East, DirectorOffice), Exit(South, Daycare),
      Describe(Lobby)]
    case DirectorOffice => [
      Exit(South, Lounge), Exit(West, Lobby), Holds(Chocolate),
      Describe(DirectorOffice)]
    case Daycare => [
      Exit(North, Lobby), Exit(South, DeepFreezer), Holds(Cracker),
      Describe(Daycare)]
    case DeepFreezer => [
      Exit(North, Daycare), Exit(South, Greenhouse), Exit(East, StorageRoom), Holds(Steak),
      Describe(DeepFreezer)]
    case Greenhouse => [
      Exit(North, DeepFreezer), Exit(East, Garage), Holds(Tomato),
      Describe(Greenhouse)]
    case Garage => [
      Exit(North, StorageRoom), Exit(West, Greenhouse), Holds(Franco),
      Describe(Garage)]
    case Lounge => [
      Exit(North, DirectorOffice), Exit(South, StorageRoom), Holds(Water),
      Describe(Lounge)]
    case StorageRoom => [
      Exit(North, Lounge), Exit(South, Garage), Exit(West, DeepFreezer), Holds(Potato),
      Describe(StorageRoom)]
  }

  /** The exits of the live table as an adjacency table. */
  function Neighbour(r: Room, d: Direction): Option<Room> {
    match r
    case Lobby => (match d case North => None case South => Some(Daycare) case East => Some(DirectorOffice) case West => None)
    case DirectorOffice => (match d case North => None case South => Some(Lounge) case East => None case West => Some(Lobby))
    case Daycare => (match d case North => Some(Lobby) case South => Some(DeepFreezer) case East => None case West => None)
    case DeepFreezer => (match d case North => Some(Daycare) case South => Some(Greenhouse) case East => Some(StorageRoom) case West => None)
    case Greenhouse => (match d case North => Some(DeepFreezer) case South => None case East => Some(Garage) case West => None)
    case Garage => (match d case North => Some(StorageRoom) case South => None case East => None case West => Some(Greenhouse))
    case Lounge => (match d case North => Some(DirectorOffice) case South => Some(StorageRoom) case East => None case West => None)
    case StorageRoom => (match d case North => Some(Lounge) case South => Some(Garage) case East => None case West => Some(DeepFreezer))
  }

  /** The `item` property of each room of the live table. */
  function Treasure(r: Room): Option<Item> {
    match r
    case Lobby => None
    case DirectorOffice => Some(Chocolate)
    case Daycare => Some(Cracker)
    case DeepFreezer => Some(Steak)
    case Greenhouse => Some(Tomato)
    case Garage => Some(Franco)
    case Lounge => Some(Water)
    case StorageRoom => Some(Potato)
  }

  /** The adjacency table reads the exits the object literals declare. */
  lemma ExitsMatchLiterals(r: Room, d: Direction)
    ensures ExitTo(LiveRoom(r), d) == Neighbour(r, d)
  {
    match r
    case Lobby => LobbyExits(d);
    case DirectorOffice => DirectorOfficeExits(d);
    case Daycare => DaycareExits(d);
    case DeepFreezer => DeepFreezerExits(d);
    case Greenhouse => GreenhouseExits(d);
    case Garage => GarageExits(d);
    case Lounge => LoungeExits(d);
    case StorageRoom => StorageRoomExits(d);
  }

  /** The item table, the exit order and the descriptions read the object
      literals too. */
  lemma RoomsMatchLiterals(r: Room)
    ensures ExitDirections(LiveRoom(r)) == ExitOrder(r)
    ensures ItemOf(LiveRoom(r)) == Treasure(r)
    ensures DescribedRoom(LiveRoom(r)) == Some(r)
  {
    match r
    case Lobby => LobbyFacts();
    case DirectorOffice => DirectorOfficeFacts();
    case Daycare => DaycareFacts();
    case DeepFreezer => DeepFreezerFacts();
    case Greenhouse => GreenhouseFacts();
    case Garage => GarageFacts();
    case Lounge => LoungeFacts();
    case StorageRoom => StorageRoomFacts();
  }

  lemma LobbyExits(d: Direction)
    ensures ExitTo(LiveRoom(Lobby), d) == Neighbour(Lobby, d)
  {
  }

  lemma LobbyFacts()
    ensures ExitDirections(LiveRoom(Lobby)) == ExitOrder(Lobby)
    ensures ItemOf(LiveRoom(Lobby)) == Treasure(Lobby)
    ensures DescribedRoom(LiveRoom(Lobby)) == Some(Lobby)
  {
  }

  lemma DirectorOfficeExits(d: Direction)
    ensures ExitTo(LiveRoom(DirectorOffice), d) == Neighbour(DirectorOffice, d)
  {
  }

  lemma DirectorOfficeFacts()
    ensures ExitDirections(LiveRoom(DirectorOffice)) == ExitOrder(DirectorOffice)
    ensures ItemOf(LiveRoom(DirectorOffice)) == Treasure(DirectorOffice)
    ensures DescribedRoom(LiveRoom(DirectorOffice)) == Some(DirectorOffice)
  {
  }

  lemma DaycareExits(d: Direction)
    ensures ExitTo(LiveRoom(Daycare), d) == Neighbour(Daycare, d)
  {
  }

  lemma DaycareFacts()
    ensures ExitDirections(LiveRoom(Daycare)) == ExitOrder(Daycare)
    ensures ItemOf(LiveRoom(Daycare)) == Treasure(Daycare)
    ensures DescribedRoom(LiveRoom(Daycare)) == Some(Daycare)
  {
  }

  lemma DeepFreezerExits(d: Direction)
    ensures ExitTo(LiveRoom(DeepFreezer), d) == Neighbour(DeepFreezer, d)
  {
  }

  lemma DeepFreezerFacts()
    ensures ExitDirections(LiveRoom(DeepFreezer)) == ExitOrder(DeepFreezer)
    ensures ItemOf(LiveRoom(DeepFreezer)) == Treasure(DeepFreezer)
    ensures DescribedRoom(LiveRoom(DeepFreezer)) == Some(DeepFreezer)
  {
  }

  lemma GreenhouseExits(d: Direction)
    ensures ExitTo(LiveRoom(Greenhouse), d) == Neighbour(Greenhouse, d)
  {
  }

  lemma GreenhouseFacts()
    ensures ExitDirections(LiveRoom(Greenhouse)) == ExitOrder(Greenhouse)
    ensures ItemOf(LiveRoom(Greenhouse)) == Treasure(Greenhouse)
    ensures DescribedRoom(LiveRoom(Greenhouse)) == Some(Greenhouse)
  {
  }

  lemma GarageExits(d: Direction)
    ensures ExitTo(LiveRoom(Garage), d) == Neighbour(Garage, d)
  {
  }

  lemma GarageFacts()
    ensures ExitDirections(LiveRoom(Garage)) == ExitOrder(Garage)
    ensures ItemOf(LiveRoom(Garage)) == Treasure(Garage)
    ensures DescribedRoom(LiveRoom(Garage)) == Some(Garage)
  {
  }

  lemma LoungeExits(d: Direction)
    ensures ExitTo(LiveRoom(Lounge), d) == Neighbour(Lounge, d)
  {
  }

  lemma LoungeFacts()
    ensures ExitDirections(LiveRoom(Lounge)) == ExitOrder(Lounge)
    ensures ItemOf(LiveRoom(Lounge)) == Treasure(Lounge)
    ensures DescribedRoom(LiveRoom(Lounge)) == Some(Lounge)
  {
  }

  lemma StorageRoomExits(d: Direction)
    ensures ExitTo(LiveRoom(StorageRoom), d) == Neighbour(StorageRoom, d)
  {
  }

  lemma StorageRoomFacts()
    ensures ExitDirections(LiveRoom(StorageRoom)) == ExitOrder(StorageRoom)
    ensures ItemOf(LiveRoom(StorageRoom)) == Treasure(StorageRoom)
    ensures DescribedRoom(LiveRoom(StorageRoom)) == Some(StorageRoom)
  {
  }

  /** Every room object carries its own description, which is what a move
      into the room shows. */
  lemma LiveRoomDescribed(r: Room)
    ensures Lookup(LiveRoom(r), "description") == Some(Description(r))
  {
    LookupDescription(LiveRoom(r));
    RoomsMatchLiterals(r);
  }

  /** The directions GameContainer lists for a room: exactly those the room
      has an exit for, and never none. */
  function AvailableDirections(r: Room): (ds: seq<string>)
    ensures forall d :: DirectionName(d) in ds <==> Neighbour(r, d).Some?
    ensures forall k :: k in ds ==> exists d :: k == DirectionName(d) && Neighbour(r, d).Some?
    ensures |ds| >= 1
  {
    var ds := DirectionKeys(LiveRoom(r));
    forall d
      ensures ExitTo(LiveRoom(r), d) == Neighbour(r, d)
    {
      ExitsMatchLiterals(r, d);
    }
    assert Neighbour(r, North).Some? || Neighbour(r, South).Some?;
    ds
  }

  /** The exits of each room, in the order its object literal declares them. */
  function ExitOrder(r: Room): seq<Direction> {
    match r
    case Lobby => [East, South]
    case DirectorOffice => [South, West]
    case Daycare => [North, South]
    case DeepFreezer => [North, South, East]
    case Greenhouse => [North, East]
    case Garage => [North, West]
    case Lounge => [North, South]
    case StorageRoom => [North, South, West]
  }

  /** The directions line of every room lists its exits once each, in
      declaration order: "East, South" for the Lobby. */
  lemma AvailableDirectionsInOrder(r: Room)
    ensures AvailableDirections(r) == Names(ExitOrder(r))
  {
    DirectionKeysInOrder(LiveRoom(r));
    RoomsMatchLiterals(r);
  }

  /** RoomDisplay's copy of the same filter, which shows nothing when it is
      given no room object. */
  function DisplayedDirections(roomData: Option<seq<Field>>): (ds: seq<string>)
    ensures roomData.None? ==> ds == []
    ensures roomData.Some? ==> forall d :: DirectionName(d) in ds <==> ExitTo(roomData.value, d).Some?
  {
    if roomData.Some? then
      var keys := Keys(roomData.value);
      FilterAgrees(keys, k => k != "item" && k != "description", NotItemOrDescription);
      assert Filter(keys, k => k != "item" && k != "description") == DirectionKeys(roomData.value);
      Filter(keys, k => k != "item" && k != "description")
    else []
  }

  /** RoomDisplay's test keeps the same keys as GameContainer's, so for any
      room object both list the same directions in the same order. */
  lemma DisplayAgreesWithFilter(obj: seq<Field>)
    ensures DisplayedDirections(Some(obj)) == DirectionKeys(obj)
  {
    FilterAgrees(Keys(obj), k => k != "item" && k != "description", NotItemOrDescription);
  }

  /** RoomDisplay lists the same directions, in the same order, as GameContainer. */
  lemma DisplayAgreesWithContainer(r: Room)
    ensures DisplayedDirections(Some(LiveRoom(r))) == AvailableDirections(r)
  {
    DisplayAgreesWithFilter(LiveRoom(r));
  }

  /** The value under every direction key of a room object is itself a key
      of the room table. */
  lemma LiveRoomWellFormed(r: Room, d: Direction)
    ensures Lookup(LiveRoom(r), DirectionName(d)).Some? ==> RoomNamed(Lookup(LiveRoom(r), DirectionName(d)).value).Some?
  {
    LookupDirection(LiveRoom(r), d);
    ExitsMatchLiterals(r, d);
    if Neighbour(r, d).Some? {
      RoomNameRoundTrip(Neighbour(r, d).value);
    }
  }

  function Opposite(d: Direction): Direction {
    match d
    case North => South
    case South => North
    case East => West
    case West => East
  }

  /** Every exit of the live table has a way back in the opposite direction. */
  lemma LiveGraphSymmetric(a: Room, d: Direction)
    requires Neighbour(a, d).Some?
    ensures Neighbour(Neighbour(a, d).value, Opposite(d)) == Some(a)
  {
  }

  /** Every food item lies in exactly one room, Franco only in the Garage,
      and the Lobby holds nothing. */
  lemma ItemsPlacedOnce(a: Room, b: Room, i: Item)
    ensures Treasure(a) == Some(i) && Treasure(b) == Some(i) ==> a == b
    ensures Treasure(a) == Some(Franco) <==> a == Garage
    ensures Treasure(Lobby) == None
    ensures IsFood(i) ==> exists r :: Treasure(r) == Some(i)
  {
    if IsFood(i) {
      var r := match i
        case Chocolate => DirectorOffice
        case Cracker => Daycare
        case Steak => DeepFreezer
        case Tomato => Greenhouse
        case Water => Lounge
        case Potato => StorageRoom;
      assert Treasure(r) == Some(i);
    }
  }
}

=== FILE: world.dfy ===
/** The vocabulary shared by both versions of the game: the closed sets of
    rooms, directions and items, the strings the JavaScript source uses for
    them, and room objects as ordered lists of own properties together with
    the two JavaScript operations the game applies to them, `Object.keys(obj)`
    and `obj[key]`.
 */
module World {

  /** A present value or JavaScript's `undefined`. */
  datatype Option<T> = None | Some(value: T) {

    /** Applies `f` to a present value and keeps `undefined` as it is. */
    function Then<U>(f: T -> U): Option<U> {
      match this
      case None => None
      case Some(v) => Some(f(v))
    }
  }

  datatype Room = Lobby | DirectorOffice | Daycare | DeepFreezer | Greenhouse | Garage | Lounge | StorageRoom

  datatype Direction = North | South | East | West

  /** The six food items and the danger marker `Franco`, which the source
      stores in the same `item` property. */
  datatype Item = Chocolate | Cracker | Steak | Tomato | Water | Potato | Franco

  predicate IsFood(i: Item) {
    i != Franco
  }

  const Food: set<Item> := {Chocolate, Cracker, Steak, Tomato, Water, Potato}

  function RoomName(r: Room): string {
    match r
    case Lobby => "Lobby"
    case DirectorOffice => "Director office"
    case Daycare => "Daycare"
    case DeepFreezer => "Deep Freezer"
    case Greenhouse => "Greenhouse"
    case Garage => "Garage"
    case Lounge => "Lounge"
    case StorageRoom => "Storage Room"
  }

  function DirectionName(d: Direction): string {
    match d
    case North => "North"
    case South => "South"
    case East => "East"
    case West => "West"
  }

  function ItemName(i: Item): string {
    match i
    case Chocolate => "Chocolate"
    case Cracker => "Cracker"
    case Steak => "Steak"
    case Tomato => "Tomato"
    case Water => "Water"
    case Potato => "Potato"
    case Franco => "Franco"
  }

  /** `name in rooms`: the room whose key in the room table is `name`, if any. */
  function RoomNamed(name: string): (r: Option<Room>)
    ensures r.Some? ==> RoomName(r.value) == name
    ensures r.None? ==> forall room: Room :: RoomName(room) != name
  {
    if name == "Lobby" then Some(Lobby)
    else if name == "Director office" then Some(DirectorOffice)
    else if name == "Daycare" then Some(Daycare)
    else if name == "Deep Freezer" then Some(DeepFreezer)
    else if name == "Greenhouse" then Some(Greenhouse)
    else if name == "Garage" then Some(Garage)
    else if name == "Lounge" then Some(Lounge)
    else if name == "Storage Room" then Some(StorageRoom)
    else None
  }

  /** Every room name is a key of the room table, and names tell rooms apart. */
  lemma RoomNameRoundTrip(r: Room)
    ensures RoomNamed(RoomName(r)) == Some(r)
  {
  }

  /** No item name is also a room name. */
  lemma ItemNameIsNoRoom(i: Item)
    ensures RoomNamed(ItemName(i)) == None
  {
  }

  /** Direction names never clash with the two non-exit property names. */
  lemma DirectionIsNoPropertyName(d: Direction)
    ensures DirectionName(d) != "item" && DirectionName(d) != "description"
  {
    match d
    case North =>
    case South =>
    case East =>
    case West =>
  }

  /** Distinct items have distinct names. */
  lemma ItemNamesDistinct()
    ensures forall i, j :: ItemName(i) == ItemName(j) ==> i == j
  {
  }

  /** The text of each room's `description` property in the live game. */
  function Description(r: Room): string {
    match r
    case Lobby => "The main entrance of the building. It seems quiet... for now."
    case DirectorOffice => "A fancy office with a large desk. There's some chocolate here!"
    case Daycare => "A colorful room with tiny chairs. You spot some crackers."
    case DeepFreezer => "Brr! It's cold in here. There's a frozen steak."
    case Greenhouse => "A warm, humid room full of plants. A ripe tomato catches your eye."
    case Garage => "Oh no! This is Franco's lair!"
    case Lounge => "A relaxation area with comfy chairs. There's a bottle of water here."
    case StorageRoom => "Shelves lined with various items. You notice a potato."
  }

  /** Distinct directions have distinct names. */
  lemma DirectionNameInjective(d: Direction, e: Direction)
    ensures DirectionName(d) == DirectionName(e) <==> d == e
  {
  }

  /** One own property of a room object literal: an exit, the `item`, or the
      `description`, whose text is `Description(room)`. */
  datatype Field = Exit(dir: Direction, target: Room) | Holds(item: Item) | Describe(room: Room)

  function KeyName(f: Field): string {
    match f
    case Exit(d, _) => DirectionName(d)
    case Holds(_) => "item"
    case Describe(_) => "description"
  }

  function ValueName(f: Field): string {
    match f
    case Exit(_, t) => RoomName(t)
    case Holds(i) => ItemName(i)
    case Describe(r) => Description(r)
  }

  /** `Object.keys(obj)`: the own keys, in declaration order. */
  function Keys(obj: seq<Field>): (ks: seq<string>)
    ensures |ks| == |obj|
  {
    if obj == [] then [] else [KeyName(obj[0])] + Keys(obj[1..])
  }

  /** The `i`-th key is the key of the `i`-th property. */
  lemma {:induction false} KeysInOrder(obj: seq<Field>, i: nat)
    requires i < |obj|
    ensures Keys(obj)[i] == KeyName(obj[i])
  {
    if i > 0 {
      KeysInOrder(obj[1..], i - 1);
    }
  }

  /** `obj[key]`: the value stored under `key`, or `undefined`. */
  function Lookup(obj: seq<Field>, key: string): (v: Option<string>)
    ensures v.Some? <==> key in Keys(obj)
    ensures v.Some? ==> exists f :: f in obj && KeyName(f) == key && ValueName(f) == v.value
  {
    if obj == [] then None
    else if KeyName(obj[0]) == key then Some(ValueName(obj[0]))
    else Lookup(obj[1..], key)
  }

  /** The room an object's exit in direction `d` leads to. */
  function ExitTo(obj: seq<Field>, d: Direction): (r: Option<Room>)
    ensures r.Some? ==> Exit(d, r.value) in obj
  {
    if obj == [] then None
    else if obj[0].Exit? && obj[0].dir == d then Some(obj[0].target)
    else ExitTo(obj[1..], d)
  }

  /** The item an object holds, `Franco` included. */
  function ItemOf(obj: seq<Field>): (i: Option<Item>)
    ensures i.Some? ==> Holds(i.value) in obj
  {
    if obj == [] then None
    else if obj[0].Holds? then Some(obj[0].item)
    else ItemOf(obj[1..])
  }

  /** The room whose description an object carries, if any. */
  function DescribedRoom(obj: seq<Field>): Option<Room> {
    if obj == [] then None
    else if obj[0].Describe? then Some(obj[0].room)
    else DescribedRoom(obj[1..])
  }

  /** An object with an exit in direction `d` has `ExitTo` find one. */
  lemma {:induction false} ExitToFindsEveryExit(obj: seq<Field>, d: Direction, t: Room)
    requires Exit(d, t) in obj
    ensures ExitTo(obj, d).Some?
  {
    if !(obj[0].Exit? && obj[0].dir == d) {
      assert Exit(d, t) in obj[1..];
      ExitToFindsEveryExit(obj[1..], d, t);
    }
  }

  /** An object with an `item` property has `ItemOf` find one. */
  lemma {:induction false} ItemOfFindsTheItem(obj: seq<Field>, x: Item)
    requires Holds(x) in obj
    ensures ItemOf(obj).Some?
  {
    if !obj[0].Holds? {
      assert Holds(x) in obj[1..];
      ItemOfFindsTheItem(obj[1..], x);
    }
  }

  /** Looking up a direction key yields the name of the room the exit leads to. */
  lemma {:induction false} LookupDirection(obj: seq<Field>, d: Direction)
    ensures Lookup(obj, DirectionName(d)) == ExitTo(obj, d).Then(RoomName)
  {
    if obj != [] {
      match obj[0] {
        case Exit(e, _) => DirectionNameInjective(d, e);
        case Holds(_) => DirectionIsNoPropertyName(d);
        case Describe(_) => DirectionIsNoPropertyName(d);
      }
      LookupDirection(obj[1..], d);
    }
  }

  /** Looking up the `item` key yields the name of the item the object holds. */
  lemma {:induction false} LookupItem(obj: seq<Field>)
    ensures Lookup(obj, "item") == ItemOf(obj).Then(ItemName)
  {
    if obj != [] {
      match obj[0] {
        case Exit(d, _) => DirectionIsNoPropertyName(d);
        case Holds(_) =>
        case Describe(_) =>
      }
      LookupItem(obj[1..]);
    }
  }

  /** Looking up the `description` key yields the description the object
      carries. */
  lemma {:induction false} LookupDescription(obj: seq<Field>)
    ensures Lookup(obj, "description") == DescribedRoom(obj).Then(Description)
  {
    if obj != [] {
      match obj[0] {
        case Exit(d, _) => DirectionIsNoPropertyName(d);
        case Holds(_) =>
        case Describe(_) =>
      }
      LookupDescription(obj[1..]);
    }
  }

  /** A key that is neither `item` nor `description` is the name of a direction
      in which the object has an exit. */
  lemma {:induction false} OtherKeysAreExits(obj: seq<Field>, k: string)
    requires k in Keys(obj) && k != "item" && k != "description"
    ensures exists d :: k == DirectionName(d) && ExitTo(obj, d).Some?
  {
    if KeyName(obj[0]) == k {
      assert obj[0].Exit?;
      assert ExitTo(obj, obj[0].dir).Some?;
    } else {
      OtherKeysAreExits(obj[1..], k);
      var d :| k == DirectionName(d) && ExitTo(obj[1..], d).Some?;
      assert Exit(d, ExitTo(obj[1..], d).value) in obj;
    }
  }

  /** `a` is `b` with some elements left out, the rest kept in order. */
  predicate Subsequence(a: seq<string>, b: seq<string>) {
    if a == [] then true
    else if b == [] then false
    else (a[0] == b[0] && Subsequence(a[1..], b[1..])) || Subsequence(a, b[1..])
  }

  /** `keys.filter(keep)`: the keys that pass, each as often as it occurs and
      in their original order. */
  function Filter(keys: seq<string>, keep: string -> bool): (kept: seq<string>)
    ensures forall k :: k in kept <==> k in keys && keep(k)
    ensures forall k :: multiset(kept)[k] == if keep(k) then multiset(keys)[k] else 0
    ensures Subsequence(kept, keys)
    ensures |kept| <= |keys|
  {
    if keys == [] then []
    else
      var rest := Filter(keys[1..], keep);
      assert keys == [keys[0]] + keys[1..];
      assert multiset(keys) == multiset{keys[0]} + multiset(keys[1..]);
      if keep(keys[0]) then
        assert ([keys[0]] + rest)[1..] == rest;
        [keys[0]] + rest
      else rest
  }

  /** The test `!['item', 'description'].includes(key)`. */
  predicate NotItemOrDescription(key: string) {
    key !in ["item", "description"]
  }

  /** `Object.keys(obj).filter(key => !['item', 'description'].includes(key))`:
      exactly the names of the directions the object has an exit for. */
  function DirectionKeys(obj: seq<Field>): (ks: seq<string>)
    ensures forall d :: DirectionName(d) in ks <==> ExitTo(obj, d).Some?
    ensures forall k :: k in ks ==> exists d :: k == DirectionName(d) && ExitTo(obj, d).Some?
  {
    var ks := Filter(Keys(obj), NotItemOrDescription);
    forall d
      ensures DirectionName(d) in ks <==> ExitTo(obj, d).Some?
    {
      DirectionIsNoPropertyName(d);
      LookupDirection(obj, d);
    }
    forall k | k in ks
      ensures exists d :: k == DirectionName(d) && ExitTo(obj, d).Some?
    {
      OtherKeysAreExits(obj, k);
    }
    ks
  }

  /** The directions of an object's exits, in declaration order. */
  function ExitDirections(obj: seq<Field>): seq<Direction> {
    if obj == [] then []
    else (if obj[0].Exit? then [obj[0].dir] else []) + ExitDirections(obj[1..])
  }

  function Names(ds: seq<Direction>): seq<string> {
    if ds == [] then [] else [DirectionName(ds[0])] + Names(ds[1..])
  }

  /** Filtering a list with a known head. */
  lemma FilterCons(k: string, rest: seq<string>, keep: string -> bool)
    ensures Filter([k] + rest, keep) == (if keep(k) then [k] else []) + Filter(rest, keep)
  {
    assert ([k] + rest)[0] == k;
    assert ([k] + rest)[1..] == rest;
  }

  /** The filtered keys are the names of the object's exits, in declaration
      order and once per exit property. */
  lemma {:induction false} DirectionKeysInOrder(obj: seq<Field>)
    ensures DirectionKeys(obj) == Names(ExitDirections(obj))
  {
    if obj != [] {
      DirectionKeysInOrder(obj[1..]);
      var k := KeyName(obj[0]);
      assert Keys(obj) == [k] + Keys(obj[1..]);
      FilterCons(k, Keys(obj[1..]), NotItemOrDescription);
      match obj[0] {
        case Exit(d, _) =>
          DirectionIsNoPropertyName(d);
          assert NotItemOrDescription(k);
          assert ExitDirections(obj) == [d] + ExitDirections(obj[1..]);
          assert Names([d] + ExitDirections(obj[1..])) == [DirectionName(d)] + Names(ExitDirections(obj[1..]));
        case Holds(_) =>
          assert !NotItemOrDescription(k);
          assert ExitDirections(obj) == ExitDirections(obj[1..]);
        case Describe(_) =>
          assert !NotItemOrDescription(k);
          assert ExitDirections(obj) == ExitDirections(obj[1..]);
      }
    }
  }

  /** Two filters that keep the same keys give the same list. */
  lemma {:induction false} FilterAgrees(keys: seq<string>, p: string -> bool, q: string -> bool)
    requires forall k :: p(k) == q(k)
    ensures Filter(keys, p) == Filter(keys, q)
  {
    if keys != [] {
      FilterAgrees(keys[1..], p, q);
    }
  }
}
